=== FILE: README.md ===
# Menu upload server: record upsert, daily listing and upload intake

A Dafny model of the pure logic inside `server.js` of the menu upload server.
Vendors post one menu image per request; the server stores the file under a
timestamped name, and keeps a flat JSON list of menu records
`{vendorName, imageUrl, uploadTime, uploadDate}` with at most one record per
vendor name. Viewers ask for the records dated today.

Modules, one per concern:

- `MenuStore` (`menu_store.dfy`): the record datatype, the parsed store, the
  `findIndex` lookup and the replace-or-append upsert, with a recursive
  reference definition of the upsert and the lemmas about key counts,
  uniqueness, last-writer-wins and idempotence.
- `DailyQuery` (`daily_query.dfy`): today's date as the part of an ISO
  timestamp before the first `T`, the order-preserving filter by upload date
  (as a function and as a loop), and the `GET /api/menus` reply.
- `FileType` (`file_type.dfy`): `checkFileType`, i.e. the unanchored pattern
  `/jpeg|jpg|png|gif|webp/` as a substring test on the lower-cased extension
  and on the MIME type as sent.
- `StoredName` (`stored_name.dfy`): `fieldname + '-' + Date.now() + extname`,
  with the decimal text of the timestamp and its read-back.
- `Upload` (`upload.dfy`): multer's intake for the route's configuration and
  the upload callback as a pure function from (error, file, store read,
  inputs) to (reply, store written).
- `Optional` (`optional.dfy`): the `Option` datatype.

Clocks and locale formatting are inputs: the millisecond timestamp `now`, the
ISO timestamp `isoNow` and the locale time text `uploadTime`. The file
extension is an input as `path.extname` would give it. Reading the store is an
input `ReadResult` (a parsed JSON value or a failure); writing it is the
`written` part of the handler's outcome.

The vendor name is taken from the request body as it is, with no check
against any list of vendors (server.js:126). The upload date is the UTC
calendar date given by `toISOString`.

## Model

| member | source | states |
|---|---|---|
| MenuStore.ReadVendors | server.js:31-39 | a failed read or parse yields the empty list; a parsed value is passed on unchanged |
| MenuStore.FindIndex | server.js:134 | the result is -1 exactly when no record carries the name, and otherwise is the lowest index whose record carries it |
| MenuStore.Upsert | server.js:131-149 | when the name is present, the length is unchanged and the result is the store with the record at the first index carrying the name replaced by the new record; when absent, the new record is appended at the end |
| MenuStore.UpsertMatchesReference | server.js:142-146 | the index-based upsert equals a structural walk that replaces the first record with the key or appends at the end |
| MenuStore.UpsertCount | server.js:134-146 | other names keep their record counts; the upserted name goes from 0 to 1 records or keeps its count (existing duplicates are not merged) |
| MenuStore.UpsertPreservesUnique | server.js:134-146 | a store with no two records sharing a vendor name keeps that property after an upsert |
| MenuStore.UpsertExactlyOne | server.js:134-146 | after an upsert into a duplicate-free store exactly one record carries the name, and the new record is in the store |
| MenuStore.UpsertLastWins | server.js:142-146 | two upserts with the same name give the same store as the second one alone |
| MenuStore.UpsertIdempotent | server.js:142-146 | upserting the same record twice gives the same store as upserting it once |
| MenuStore.UpsertKeepsOthers | server.js:142-146 | a record whose name differs from the upserted one stays at its index |
| MenuStore.UniqueCountAtMostOne | server.js:134 | in a duplicate-free store every name has at most one record |
| DailyQuery.DatePart | server.js:167 | the date is a prefix of the timestamp without any 'T' that ends at the first 'T' or at the end of the timestamp |
| DailyQuery.DatePartUnique | server.js:167 | any prefix with those three properties is the date part |
| DailyQuery.DatePartOfTimestamp | server.js:139 | for a timestamp `date + "T" + time` with no 'T' in `date`, the date part is `date` |
| DailyQuery.TodayMenus | server.js:170-172 | the result holds exactly the store's records dated today and is no longer than the store |
| DailyQuery.TodayMenusAppend | server.js:170-172 | filtering a concatenation is the concatenation of the filtered parts, so store order is kept |
| DailyQuery.TodayMenusIsSubsequence | server.js:170-172 | the result is a subsequence of the store |
| DailyQuery.TodayMenusMultiplicity | server.js:170-172 | each record dated today occurs as often as in the store; records of other dates do not occur |
| DailyQuery.TodayMenusIdempotent | server.js:170-172 | filtering the result again changes nothing |
| DailyQuery.TodayMenusCount | server.js:170-172 | filtering never raises a vendor's record count, and keeps it when all that vendor's records are dated today |
| DailyQuery.ListToday | server.js:170-172 | the single left-to-right pass that appends each record dated today computes the filter |
| DailyQuery.ListMenus | server.js:164-179 | the listing fails with status 500 and "Error fetching menus" exactly when the stored value is not a list; otherwise it is the order-preserving filter of the store by the date part of the current ISO timestamp, so it holds exactly the records of that date, in store order, each as often as in the store |
| FileType.Contains | server.js:75 | the substring test is true exactly when the pattern occurs at some position |
| FileType.MatchesImageType | server.js:75 | the pattern test is true exactly when one of the five image type names occurs in the text |
| FileType.LowerChar | server.js:77 | (ASCII only) an ASCII capital becomes the matching lower-case letter; every other character is unchanged |
| FileType.ToLower | server.js:77 | (ASCII only) the lower-cased text has the same length and lower-cases each character in place |
| FileType.CheckFileType | server.js:73-93 | accepted exactly when the lower-cased extension and the MIME type each contain an image type name; a rejection carries "Error: Images Only!" |
| FileType.ExtensionCaseInsensitive | server.js:77 | extensions equal up to letter case get the same verdict |
| FileType.MatchIsUnanchored | server.js:75 | any text around a matching text still matches |
| FileType.NonImageExtensionRejected | server.js:88-92 | an extension containing no image type name is rejected whatever the MIME type |
| FileType.ExeRejected | server.js:73-93 | `.exe` is rejected with "Error: Images Only!" whatever the MIME type |
| FileType.UpperCaseExtensionAccepted | server.js:77 | `.JPG` with `image/jpeg` is accepted |
| FileType.LongerExtensionAccepted | server.js:75-79 | `.jpgx` with `image/png` is accepted |
| FileType.UpperCaseMimeRejected | server.js:79 | `IMAGE/PNG` is rejected because the MIME type is not lower-cased |
| FileType.AbsentFirstCharNoMatch | server.js:75 | a pattern whose first character is absent from the text does not occur in it |
| StoredName.Decimal | server.js:60 | the decimal text of a timestamp is non-empty, all digits, and starts with '0' only for the timestamp 0 |
| StoredName.DecimalRoundTrip | server.js:60 | reading back the decimal text of a timestamp gives the timestamp |
| StoredName.DecimalInjective | server.js:60 | distinct timestamps have distinct decimal texts |
| StoredName.StoredFilename | server.js:60 | the name starts with the field name and a dash, ends with the extension, and in between holds only digits that read back as the timestamp |
| StoredName.StoredFilenameInjective | server.js:60 | for one field name and dot-led or empty extensions, equal stored names mean equal timestamps and equal extensions |
| Upload.IsTruthy | server.js:116 | every error object counts as an error; a string error counts exactly when it is non-empty |
| Upload.ErrorBodyOf | server.js:118 | the reply carries a string error's text or an object's non-empty message, and the error object itself exactly when its message is empty |
| Upload.ReceiveFile | server.js:64-70 | no file part gives neither error nor file; a file is stored exactly when the filter accepts it, under `menuImage-<timestamp><ext>`; a refused file gives the filter's string error |
| Upload.RecordFor | server.js:135-140 | the record carries the request's vendor name, `/uploads/` plus the stored name, the given time text, and the date part of the ISO timestamp as date |
| Upload.HandleUpload | server.js:116-158 | a truthy error replies with `err.message || err` and a missing file with "No file selected!", neither writing the store; a parsed non-list replies "Error saving vendor data" without writing the store; otherwise it replies `uploads/` plus the stored name and the record (vendor name, `/uploads/` plus the stored name, time text, date part of the timestamp), and writes the store with that record upserted |
| Upload.HandleRequest | server.js:114-160 | no file part replies "No file selected!" and a file the filter refuses replies "Error: Images Only!", neither writing; an accepted file with a non-list store replies "Error saving vendor data" without writing the store; an accepted file with a list store replies `uploads/menuImage-<timestamp><ext>` with the record `RecordFor` builds for that name, and writes the store with it upserted; the store is written only for an accepted file |
| Upload.ShortCircuitIgnoresStore | server.js:116-123 | on an error or a missing file the outcome is the same for every store content, is an error reply, and writes nothing |
| Upload.SuccessKeepsUniqueVendors | server.js:131-149 | a successful upload into a duplicate-free store writes a duplicate-free store with exactly one record for the vendor |
| Upload.UnreadableStoreIsReplaced | server.js:131-149 | when the store cannot be read, a successful upload writes a store holding only the new record |
| Upload.ExeUploadRejected | server.js:73-93 | a `.exe` upload within the size limit gets "Error: Images Only!" and writes nothing |
| Upload.UploadThenListShowsVendor | server.js:131-172 | after a successful upload into a duplicate-free store, a listing on the same date holds the new record and exactly one record for the vendor |

## Left out

- File-system access (`ensureDataDir`, `readVendorsData`'s file read, `writeVendorsData`, server.js:11-48): the read is the `ReadResult` input, the write is the `written` outcome; a failed write is logged and swallowed by the source, so the reply never depends on it.
- JSON parsing and printing: the parsed store is either a list of well-formed records or some other value; lists holding `null` or records missing fields are not modelled.
- A request body without `vendorName` (the record would carry `undefined`): the vendor name is always a string here.
- Upload.ReceiveFile: requires the file to be within multer's 10,000,000-byte limit, because the limit and its error are enforced inside multer; other multer errors (an unexpected field, a broken stream) reach the handler only as the `err` input of `HandleUpload`.
- Upload.HandleRequest: requires the file to be within multer's 10,000,000-byte limit, for the same reason as `Upload.ReceiveFile`; multer's reply to an oversized file is not modelled.
- multer's write of the accepted image into `./uploads/` (server.js:51-62): only the stored name is modelled, so an image left on disk after a later error reply is not.
- `path.extname`: the extension is an input; `StoredFilenameInjective` assumes it is empty or starts with a dot, as `path.extname` returns.
- `Date.now()`, `toLocaleTimeString()`, `toISOString()`: inputs. Timestamps are natural numbers, so a clock before 1970 is not modelled; JavaScript writes numbers of 10^21 and above in exponent form, which `Date.now()` never reaches.
- FileType.LowerChar: lower-cases ASCII capitals only and leaves every other character unchanged, while `toLowerCase` also maps non-ASCII capitals (such as 'É' to 'é').
- FileType.ToLower: keeps the length and lower-cases ASCII capitals only; `toLowerCase` lower-cases other capitals too and turns U+0130 into two code points, which is not modelled.
- FileType.CheckFileType: lower-cases ASCII capitals only, while `toLowerCase` is full Unicode; the only non-ASCII characters whose lower case contains ASCII letters become `k` or `i` followed by a combining dot, and neither can complete one of the five image type names, so the verdict agrees.
- Express routing, static file serving, the HTML pages and port binding (server.js:95-108, 181-182).
- Concurrent requests on the shared JSON file: each handler call is modelled as one atomic read-modify-write.

=== FILE: daily_query.dfy ===
/**
 * The `/api/menus` endpoint (server.js, lines 164-179): today's date as the
 * part of an ISO timestamp before the first 'T', and the order-preserving
 * filter of the store by that date.
 */
module DailyQuery {
  import opened MenuStore

  /** Status and message of the listing endpoint's failure reply. */
  const ServerErrorStatus: nat := 500
  const FetchError: string := "Error fetching menus"

  /** Reply of `GET /api/menus`: today's records, or the 500 error reply. */
  datatype MenusReply = Menus(records: seq<MenuRecord>) | ServerError(status: nat, error: string)

  /**
   * `iso.split('T')[0]`: the longest prefix of `iso` free of 'T'. It stops
   * exactly at the first 'T', or is the whole string when there is none.
   */
  function DatePart(iso: string): (d: string)
    ensures d <= iso
    ensures 'T' !in d
    ensures |d| < |iso| ==> iso[|d|] == 'T'
  {
    if |iso| == 0 || iso[0] == 'T' then ""
    else [iso[0]] + DatePart(iso[1..])
  }

  /** The three properties of `DatePart` determine it: any such prefix is the date part. */
  lemma {:induction false} DatePartUnique(iso: string, d: string)
    requires d <= iso && 'T' !in d
    requires |d| < |iso| ==> iso[|d|] == 'T'
    ensures DatePart(iso) == d
  {
  }

  /** For a timestamp of the form `date + "T" + time`, the date part is `date`. */
  lemma DatePartOfTimestamp(date: string, time: string)
    requires 'T' !in date
    ensures DatePart(date + "T" + time) == date
  {
    var iso := date + "T" + time;
    assert date <= iso;
    assert iso[|date|] == 'T';
    DatePartUnique(iso, date);
  }

  /** `vendors.filter(v => v.uploadDate === today)`. */
  function TodayMenus(s: seq<MenuRecord>, today: string): (r: seq<MenuRecord>)
    ensures |r| <= |s|
    ensures forall x :: x in r <==> x in s && x.uploadDate == today
  {
    if |s| == 0 then []
    else
      var rest := TodayMenus(s[1..], today);
      assert forall x :: x in s <==> x == s[0] || x in s[1..];
      if s[0].uploadDate == today then [s[0]] + rest else rest
  }

  /** `a` is obtained from `b` by deleting elements, without reordering. */
  predicate IsSubsequence(a: seq<MenuRecord>, b: seq<MenuRecord>)
    decreases |b|
  {
    if |a| == 0 then true
    else if |b| == 0 then false
    else (a[0] == b[0] && IsSubsequence(a[1..], b[1..])) || IsSubsequence(a, b[1..])
  }

  /** The filter distributes over concatenation: records keep their store order. */
  lemma {:induction false} TodayMenusAppend(a: seq<MenuRecord>, b: seq<MenuRecord>, today: string)
    ensures TodayMenus(a + b, today) == TodayMenus(a, today) + TodayMenus(b, today)
  {
    if |a| > 0 {
      assert (a + b)[1..] == a[1..] + b;
      TodayMenusAppend(a[1..], b, today);
    } else {
      assert a + b == b;
    }
  }

  /** The result is a subsequence of the store: nothing is reordered. */
  lemma {:induction false} TodayMenusIsSubsequence(s: seq<MenuRecord>, today: string)
    ensures IsSubsequence(TodayMenus(s, today), s)
  {
    if |s| > 0 {
      TodayMenusIsSubsequence(s[1..], today);
      var rest := TodayMenus(s[1..], today);
      if s[0].uploadDate == today {
        assert ([s[0]] + rest)[1..] == rest;
      }
    }
  }

  /**
   * The result holds every record dated `today` as many times as the store
   * does, and no record of another date.
   */
  lemma {:induction false} TodayMenusMultiplicity(s: seq<MenuRecord>, today: string, x: MenuRecord)
    ensures multiset(TodayMenus(s, today))[x] ==
      if x.uploadDate == today then multiset(s)[x] else 0
  {
    if |s| > 0 {
      TodayMenusMultiplicity(s[1..], today, x);
      assert s == [s[0]] + s[1..];
      assert multiset(s) == multiset([s[0]]) + multiset(s[1..]);
    }
  }

  /** Filtering a filtered list again changes nothing. */
  lemma {:induction false} TodayMenusIdempotent(s: seq<MenuRecord>, today: string)
    ensures TodayMenus(TodayMenus(s, today), today) == TodayMenus(s, today)
  {
    if |s| > 0 {
      TodayMenusIdempotent(s[1..], today);
      var rest := TodayMenus(s[1..], today);
      if s[0].uploadDate == today {
        assert ([s[0]] + rest)[1..] == rest;
      }
    }
  }

  /**
   * The filter keeps the key count of every vendor whose records are all
   * dated `today`, and never raises a key count.
   */
  lemma {:induction false} TodayMenusCount(s: seq<MenuRecord>, today: string, v: string)
    ensures Count(TodayMenus(s, today), v) <= Count(s, v)
    ensures (forall j :: 0 <= j < |s| && s[j].vendorName == v ==> s[j].uploadDate == today) ==>
      Count(TodayMenus(s, today), v) == Count(s, v)
  {
    if |s| > 0 {
      TodayMenusCount(s[1..], today, v);
      var rest := TodayMenus(s[1..], today);
      if s[0].uploadDate == today {
        assert ([s[0]] + rest)[1..] == rest;
      }
      if forall j :: 0 <= j < |s| && s[j].vendorName == v ==> s[j].uploadDate == today {
        assert forall j :: 0 <= j < |s[1..]| && s[1..][j].vendorName == v ==> s[1..][j].uploadDate == today by {
          forall j | 0 <= j < |s[1..]| && s[1..][j].vendorName == v
            ensures s[1..][j].uploadDate == today
          {
            assert s[1..][j] == s[j + 1];
          }
        }
      }
    }
  }

  /** The loop form of the filter: walks the store once, appending each record dated `today`. */
  method ListToday(s: seq<MenuRecord>, today: string) returns (r: seq<MenuRecord>)
    ensures r == TodayMenus(s, today)
  {
    r := [];
    var i := 0;
    while i < |s|
      invariant 0 <= i <= |s|
      invariant r == TodayMenus(s[..i], today)
    {
      assert s[..i + 1] == s[..i] + [s[i]];
      TodayMenusAppend(s[..i], [s[i]], today);
      if s[i].uploadDate == today {
        r := r + [s[i]];
      }
      i := i + 1;
    }
    assert s[..i] == s;
  }

  /**
   * `GET /api/menus`: today is the date part of the current ISO timestamp;
   * a stored value that is not a list makes `filter` throw, answered with 500.
   */
  function ListMenus(read: ReadResult, isoNow: string): (reply: MenusReply)
    ensures ReadVendors(read).NotAList? <==> reply.ServerError?
    ensures reply.ServerError? ==> reply.status == ServerErrorStatus && reply.error == FetchError
    ensures reply.Menus? ==>
      reply.records == TodayMenus(ReadVendors(read).records, DatePart(isoNow))
    ensures reply.Menus? ==>
      forall x :: x in reply.records <==>
        x in ReadVendors(read).records && x.uploadDate == DatePart(isoNow)
  {
    match ReadVendors(read)
    case NotAList => ServerError(ServerErrorStatus, FetchError)
    case Records(records) => Menus(TodayMenus(records, DatePart(isoNow)))
  }
}

=== FILE: file_type.dfy ===
/**
 * `checkFileType` (server.js, lines 72-93): the unanchored pattern
 * `/jpeg|jpg|png|gif|webp/` matched against the lower-cased extension and
 * against the MIME type as sent.
 */
module FileType {

  /** The alternatives of the pattern, in the order they are written. */
  const ImageTypes: seq<string> := ["jpeg", "jpg", "png", "gif", "webp"]

  /** The error the filter hands to multer on rejection. */
  const ImagesOnly: string := "Error: Images Only!"

  /** Verdict of the file filter. */
  datatype Verdict = Accepted | Rejected(error: string)

  /** `pat` occurs in `s` starting at index `i`. */
  predicate OccursAt(s: string, pat: string, i: int)
  {
    0 <= i && i + |pat| <= |s| && s[i..i + |pat|] == pat
  }

  /** Substring test, walking the start position from the left. */
  function Contains(s: string, pat: string): (b: bool)
    ensures b <==> exists i :: OccursAt(s, pat, i)
  {
    if |pat| <= |s| && s[..|pat|] == pat then
      assert OccursAt(s, pat, 0);
      true
    else if |s| == 0 then
      assert forall i :: !OccursAt(s, pat, i);
      false
    else
      var b := Contains(s[1..], pat);
      assert forall i :: 1 <= i ==> (OccursAt(s, pat, i) <==> OccursAt(s[1..], pat, i - 1)) by {
        forall i | 1 <= i
          ensures OccursAt(s, pat, i) <==> OccursAt(s[1..], pat, i - 1)
        {
          if i + |pat| <= |s| {
            var here, there := s[i..i + |pat|], s[1..][i - 1..i - 1 + |pat|];
            assert forall j :: 0 <= j < |here| ==> here[j] == there[j];
            assert here == there;
          }
        }
      }
      assert !OccursAt(s, pat, 0);
      assert b ==> exists i :: OccursAt(s, pat, i) by {
        if b {
          var k :| OccursAt(s[1..], pat, k);
          assert OccursAt(s, pat, k + 1);
        }
      }
      b
  }

  /** `/jpeg|jpg|png|gif|webp/.test(s)`: some alternative occurs somewhere in `s`. */
  function MatchesImageType(s: string): (b: bool)
    ensures b <==> exists k :: 0 <= k < |ImageTypes| && Contains(s, ImageTypes[k])
  {
    assert ImageTypes[0] == "jpeg" && ImageTypes[1] == "jpg" && ImageTypes[2] == "png";
    assert ImageTypes[3] == "gif" && ImageTypes[4] == "webp";
    Contains(s, "jpeg") || Contains(s, "jpg") || Contains(s, "png")
    || Contains(s, "gif") || Contains(s, "webp")
  }

  /** `toLowerCase` on one character, for the ASCII capitals. */
  function LowerChar(c: char): (r: char)
    ensures 'A' <= c <= 'Z' ==> 'a' <= r <= 'z' && r as int - c as int == 'a' as int - 'A' as int
    ensures !('A' <= c <= 'Z') ==> r == c
  {
    if 'A' <= c <= 'Z' then (c as int - 'A' as int + 'a' as int) as char else c
  }

  /** `toLowerCase` on a string, character by character. */
  function ToLower(s: string): (r: string)
    ensures |r| == |s|
    ensures forall i :: 0 <= i < |s| ==> r[i] == LowerChar(s[i])
  {
    seq(|s|, i requires 0 <= i < |s| => LowerChar(s[i]))
  }

  /**
   * `checkFileType`: accepted exactly when the lower-cased extension and the
   * MIME type (not lower-cased) both match the pattern; otherwise the images-only error.
   */
  function CheckFileType(ext: string, mimetype: string): (v: Verdict)
    ensures v.Accepted? <==>
      (exists k :: 0 <= k < |ImageTypes| && Contains(ToLower(ext), ImageTypes[k]))
      && (exists k :: 0 <= k < |ImageTypes| && Contains(mimetype, ImageTypes[k]))
    ensures v.Rejected? ==> v.error == ImagesOnly
  {
    if MatchesImageType(mimetype) && MatchesImageType(ToLower(ext)) then Accepted
    else Rejected(ImagesOnly)
  }

  /** The extension test ignores letter case: extensions equal up to case get the same verdict. */
  lemma ExtensionCaseInsensitive(ext1: string, ext2: string, mimetype: string)
    requires ToLower(ext1) == ToLower(ext2)
    ensures CheckFileType(ext1, mimetype) == CheckFileType(ext2, mimetype)
  {
  }

  /** The pattern is unanchored: surrounding a match with any text keeps it a match. */
  lemma MatchIsUnanchored(s: string, before: string, after: string)
    requires MatchesImageType(s)
    ensures MatchesImageType(before + s + after)
  {
    var k :| 0 <= k < |ImageTypes| && Contains(s, ImageTypes[k]);
    var pat := ImageTypes[k];
    var i :| OccursAt(s, pat, i);
    var t := before + s + after;
    assert t[|before| + i..|before| + i + |pat|] == s[i..i + |pat|];
    assert OccursAt(t, pat, |before| + i);
  }

  /** An extension containing none of the image types is rejected whatever the MIME type. */
  lemma NonImageExtensionRejected(ext: string, mimetype: string)
    requires forall k :: 0 <= k < |ImageTypes| ==> !Contains(ToLower(ext), ImageTypes[k])
    ensures CheckFileType(ext, mimetype) == Rejected(ImagesOnly)
  {
  }

  /** A pattern whose first character does not occur in `s` does not occur in `s`. */
  lemma AbsentFirstCharNoMatch(s: string, pat: string)
    requires |pat| > 0 && pat[0] !in s
    ensures !Contains(s, pat)
  {
  }

  /** No alternative of the pattern starts with a character of `s`, so `s` does not match. */
  lemma NoStartCharNoMatch(s: string)
    requires forall c :: c in s ==> c !in "jpgw"
    ensures !MatchesImageType(s)
  {
    AbsentFirstCharNoMatch(s, "jpeg");
    AbsentFirstCharNoMatch(s, "jpg");
    AbsentFirstCharNoMatch(s, "png");
    AbsentFirstCharNoMatch(s, "gif");
    AbsentFirstCharNoMatch(s, "webp");
  }

  /** `.exe` contains no image type, so `virus.exe` is rejected with any MIME type. */
  lemma ExeRejected(mimetype: string)
    ensures CheckFileType(".exe", mimetype) == Rejected(ImagesOnly)
  {
    var e := ToLower(".exe");
    assert e == ".exe";
    NoStartCharNoMatch(e);
  }

  /** An upper-case extension passes: only the extension is lower-cased. */
  lemma UpperCaseExtensionAccepted()
    ensures CheckFileType(".JPG", "image/jpeg") == Accepted
  {
    assert OccursAt("image/jpeg", "jpeg", 6);
    assert ToLower(".JPG") == ".jpg";
    assert OccursAt(".jpg", "jpg", 1);
  }

  /** `.jpgx` passes because the test is a substring test, not a whole-extension test. */
  lemma LongerExtensionAccepted()
    ensures CheckFileType(".jpgx", "image/png") == Accepted
  {
    assert OccursAt("image/png", "png", 6);
    assert ToLower(".jpgx") == ".jpgx";
    assert OccursAt(".jpgx", "jpg", 1);
  }

  /** The MIME test is case-sensitive: an upper-case MIME type is rejected. */
  lemma UpperCaseMimeRejected()
    ensures CheckFileType(".png", "IMAGE/PNG") == Rejected(ImagesOnly)
  {
    NoStartCharNoMatch("IMAGE/PNG");
  }
}

=== FILE: menu_store.dfy ===
/**
 * The record store of the menu upload server: a flat list of menu records,
 * the `findIndex` lookup by vendor name, and the replace-or-append upsert
 * the upload handler performs on it (server.js, lines 131-149).
 */
module MenuStore {

  /** One entry of the JSON store; `vendorName` is the upsert key. */
  datatype MenuRecord = MenuRecord(
    vendorName: string,
    imageUrl: string,
    uploadTime: string,
    uploadDate: string)

  /** What `JSON.parse` of the store file produced: an array of records, or any other JSON value. */
  datatype StoreContent = Records(records: seq<MenuRecord>) | NotAList

  /** The outcome of reading the store file: the parsed value, or a read/parse failure. */
  datatype ReadResult = Parsed(content: StoreContent) | ReadFailed

  /** Some record of `s` carries vendor name `v`. */
  predicate HasVendor(s: seq<MenuRecord>, v: string)
  {
    exists j :: 0 <= j < |s| && s[j].vendorName == v
  }

  /** `i` is the lowest index of `s` whose record carries vendor name `v`. */
  predicate IsFirstIndex(s: seq<MenuRecord>, v: string, i: int)
  {
    && 0 <= i < |s|
    && s[i].vendorName == v
    && forall j :: 0 <= j < i ==> s[j].vendorName != v
  }

  /** Number of records of `s` that carry vendor name `v`. */
  function Count(s: seq<MenuRecord>, v: string): nat
  {
    if |s| == 0 then 0
    else (if s[0].vendorName == v then 1 else 0) + Count(s[1..], v)
  }

  /** The store invariant: no two records share a vendor name. */
  predicate UniqueVendors(s: seq<MenuRecord>)
  {
    forall i, j :: 0 <= i < j < |s| ==> s[i].vendorName != s[j].vendorName
  }

  /**
   * `readVendorsData`: a failed read or parse is swallowed and yields the
   * empty list; any parsed value is passed on as it is.
   */
  function ReadVendors(read: ReadResult): (c: StoreContent)
    ensures read.ReadFailed? ==> c == Records([])
    ensures read.Parsed? ==> c == read.content
  {
    match read
    case ReadFailed => Records([])
    case Parsed(content) => content
  }

  /**
   * `Array.prototype.findIndex` with the test `v.vendorName === vendorName`:
   * the first matching index, or -1 when no record matches.
   */
  function FindIndex(s: seq<MenuRecord>, v: string): (i: int)
    ensures -1 <= i < |s|
    ensures i == -1 <==> !HasVendor(s, v)
    ensures 0 <= i ==> IsFirstIndex(s, v, i)
  {
    if |s| == 0 then -1
    else if s[0].vendorName == v then 0
    else
      var k := FindIndex(s[1..], v);
      assert forall j :: 1 <= j < |s| ==> s[j] == s[1..][j - 1];
      if k < 0 then -1 else k + 1
  }

  /**
   * The upsert of the upload handler: replace the first record with the same
   * vendor name in place, or append the record when there is none.
   */
  function Upsert(s: seq<MenuRecord>, rec: MenuRecord): (r: seq<MenuRecord>)
    ensures HasVendor(s, rec.vendorName) ==>
      |r| == |s| && exists i :: IsFirstIndex(s, rec.vendorName, i) && r == s[i := rec]
    ensures !HasVendor(s, rec.vendorName) ==> r == s + [rec]
  {
    var i := FindIndex(s, rec.vendorName);
    if i >= 0 then s[i := rec] else s + [rec]
  }

  /**
   * An independent, structurally recursive definition of the same upsert:
   * walk the list and replace the first record with the key, appending at the end.
   */
  function UpsertRec(s: seq<MenuRecord>, rec: MenuRecord): seq<MenuRecord>
  {
    if |s| == 0 then [rec]
    else if s[0].vendorName == rec.vendorName then [rec] + s[1..]
    else [s[0]] + UpsertRec(s[1..], rec)
  }

  /** The index-based upsert and the recursive reference definition agree on every input. */
  lemma {:induction false} UpsertMatchesReference(s: seq<MenuRecord>, rec: MenuRecord)
    ensures Upsert(s, rec) == UpsertRec(s, rec)
  {
    if |s| == 0 {
    } else if s[0].vendorName == rec.vendorName {
      assert IsFirstIndex(s, rec.vendorName, 0);
      assert Upsert(s, rec) == s[0 := rec];
    } else {
      var v := rec.vendorName;
      UpsertMatchesReference(s[1..], rec);
      if HasVendor(s[1..], v) {
        var k :| IsFirstIndex(s[1..], v, k) && Upsert(s[1..], rec) == s[1..][k := rec];
        assert IsFirstIndex(s, v, k + 1);
        assert HasVendor(s, v);
        var i :| IsFirstIndex(s, v, i) && Upsert(s, rec) == s[i := rec];
        FirstIndexUnique(s, v, i, k + 1);
        assert s[i := rec] == [s[0]] + s[1..][k := rec];
      } else {
        assert !HasVendor(s, v) by {
          forall j | 0 <= j < |s|
            ensures s[j].vendorName != v
          {
            if j > 0 { assert s[j] == s[1..][j - 1]; }
          }
        }
        assert s + [rec] == [s[0]] + (s[1..] + [rec]);
      }
    }
  }

  /** The first index carrying a key is unique. */
  lemma FirstIndexUnique(s: seq<MenuRecord>, v: string, i: int, k: int)
    requires IsFirstIndex(s, v, i) && IsFirstIndex(s, v, k)
    ensures i == k
  {
  }

  /** A record count of zero means exactly that no record carries the key. */
  lemma {:induction false} CountZeroIffAbsent(s: seq<MenuRecord>, v: string)
    ensures Count(s, v) == 0 <==> !HasVendor(s, v)
  {
    if |s| > 0 {
      CountZeroIffAbsent(s[1..], v);
      if HasVendor(s[1..], v) {
        var j :| 0 <= j < |s[1..]| && s[1..][j].vendorName == v;
        assert s[j + 1].vendorName == v;
      }
      if s[0].vendorName != v && HasVendor(s, v) {
        var j :| 0 <= j < |s| && s[j].vendorName == v;
        assert s[1..][j - 1].vendorName == v;
      }
    }
  }

  /** In a store that keeps the invariant, every key occurs at most once. */
  lemma {:induction false} UniqueCountAtMostOne(s: seq<MenuRecord>, v: string)
    requires UniqueVendors(s)
    ensures Count(s, v) <= 1
  {
    if |s| > 0 {
      assert UniqueVendors(s[1..]) by {
        forall i, j | 0 <= i < j < |s[1..]|
          ensures s[1..][i].vendorName != s[1..][j].vendorName
        {
          assert s[1..][i] == s[i + 1] && s[1..][j] == s[j + 1];
        }
      }
      UniqueCountAtMostOne(s[1..], v);
      if s[0].vendorName == v {
        assert !HasVendor(s[1..], v) by {
          forall j | 0 <= j < |s[1..]|
            ensures s[1..][j].vendorName != v
          {
            assert s[1..][j] == s[j + 1];
          }
        }
        CountZeroIffAbsent(s[1..], v);
      }
    }
  }

  /** How the reference upsert changes the number of records carrying key `w`. */
  lemma {:induction false} UpsertRecCount(s: seq<MenuRecord>, rec: MenuRecord, w: string)
    ensures Count(UpsertRec(s, rec), w) ==
      if w != rec.vendorName then Count(s, w)
      else if Count(s, w) == 0 then 1
      else Count(s, w)
  {
    if |s| == 0 {
      assert Count([rec], w) == (if rec.vendorName == w then 1 else 0) + Count([rec][1..], w);
    } else if s[0].vendorName == rec.vendorName {
      var r := [rec] + s[1..];
      assert r[1..] == s[1..];
    } else {
      var r := [s[0]] + UpsertRec(s[1..], rec);
      assert r[1..] == UpsertRec(s[1..], rec);
      UpsertRecCount(s[1..], rec, w);
    }
  }

  /**
   * Upsert changes key counts only for its own key: that key ends up with
   * one record when it had none, and keeps its count (duplicates included) otherwise.
   */
  lemma UpsertCount(s: seq<MenuRecord>, rec: MenuRecord, w: string)
    ensures Count(Upsert(s, rec), w) ==
      if w != rec.vendorName then Count(s, w)
      else if Count(s, w) == 0 then 1
      else Count(s, w)
  {
    UpsertMatchesReference(s, rec);
    UpsertRecCount(s, rec, w);
  }

  /** Upserting into a store that keeps the invariant yields a store that keeps it. */
  lemma UpsertPreservesUnique(s: seq<MenuRecord>, rec: MenuRecord)
    requires UniqueVendors(s)
    ensures UniqueVendors(Upsert(s, rec))
  {
  }

  /** After an upsert into a store that keeps the invariant, exactly one record carries the key. */
  lemma UpsertExactlyOne(s: seq<MenuRecord>, rec: MenuRecord)
    requires UniqueVendors(s)
    ensures Count(Upsert(s, rec), rec.vendorName) == 1
    ensures exists i :: 0 <= i < |Upsert(s, rec)| && Upsert(s, rec)[i] == rec
  {
    UpsertCount(s, rec, rec.vendorName);
    UniqueCountAtMostOne(s, rec.vendorName);
    if HasVendor(s, rec.vendorName) {
      var i :| IsFirstIndex(s, rec.vendorName, i) && Upsert(s, rec) == s[i := rec];
      assert Upsert(s, rec)[i] == rec;
    } else {
      assert Upsert(s, rec)[|s|] == rec;
    }
  }

  /**
   * A later upsert with the same key overwrites an earlier one: the store is
   * the same as if only the later record had been upserted.
   */
  lemma UpsertLastWins(s: seq<MenuRecord>, a: MenuRecord, b: MenuRecord)
    requires a.vendorName == b.vendorName
    ensures Upsert(Upsert(s, a), b) == Upsert(s, b)
  {
    var v := a.vendorName;
    var r := Upsert(s, a);
    if HasVendor(s, v) {
      var i :| IsFirstIndex(s, v, i) && r == s[i := a];
      assert IsFirstIndex(r, v, i);
      var k :| IsFirstIndex(r, v, k) && Upsert(r, b) == r[k := b];
      FirstIndexUnique(r, v, k, i);
      var m :| IsFirstIndex(s, v, m) && Upsert(s, b) == s[m := b];
      FirstIndexUnique(s, v, m, i);
    } else {
      assert r == s + [a];
      assert IsFirstIndex(r, v, |s|);
      var k :| IsFirstIndex(r, v, k) && Upsert(r, b) == r[k := b];
      FirstIndexUnique(r, v, k, |s|);
    }
  }

  /** Upserting the same record twice leaves the same store as upserting it once. */
  lemma UpsertIdempotent(s: seq<MenuRecord>, rec: MenuRecord)
    ensures Upsert(Upsert(s, rec), rec) == Upsert(s, rec)
  {
    UpsertLastWins(s, rec, rec);
  }

  /** Records whose key differs from the upserted one are untouched and keep their relative order. */
  lemma UpsertKeepsOthers(s: seq<MenuRecord>, rec: MenuRecord, j: int)
    requires 0 <= j < |s| && s[j].vendorName != rec.vendorName
    ensures j < |Upsert(s, rec)| && Upsert(s, rec)[j] == s[j]
  {
  }
}

=== FILE: optional.dfy ===
/** The absent-or-present wrapper used across the model. */
module Optional {

  /** A JavaScript value that may be `undefined`: `Some` carries it, `None` is its absence. */
  datatype Option<+T> = None | Some(value: T)
}

=== FILE: stored_name.dfy ===
/**
 * The stored file name multer's disk storage is told to use (server.js,
 * line 60): `fieldname + '-' + Date.now() + extname`, with the millisecond
 * timestamp written in decimal.
 */
module StoredName {

  /** The only field name the upload route accepts (`.single('menuImage')`). */
  const FieldName: string := "menuImage"

  predicate IsDigit(c: char)
  {
    '0' <= c <= '9'
  }

  /** The character of a single decimal digit. */
  function DigitChar(d: nat): (c: char)
    requires d < 10
    ensures IsDigit(c)
  {
    ('0' as int + d) as char
  }

  /** The decimal text of a millisecond timestamp, as JavaScript writes an integral number. */
  function Decimal(n: nat): (s: string)
    ensures |s| > 0
    ensures forall i :: 0 <= i < |s| ==> IsDigit(s[i])
    ensures s[0] == '0' ==> n == 0
  {
    if n < 10 then [DigitChar(n)] else Decimal(n / 10) + [DigitChar(n % 10)]
  }

  /** Reads a string of decimal digits back as a number. */
  function ParseDecimal(s: string): nat
    requires forall i :: 0 <= i < |s| ==> IsDigit(s[i])
  {
    if |s| == 0 then 0
    else
      assert IsDigit(s[|s| - 1]);
      ParseDecimal(s[..|s| - 1]) * 10 + (s[|s| - 1] as int - '0' as int)
  }

  /** Reading back the decimal text of a timestamp gives the timestamp. */
  lemma {:induction false} DecimalRoundTrip(n: nat)
    ensures ParseDecimal(Decimal(n)) == n
  {
    var s := Decimal(n);
    if n >= 10 {
      DecimalRoundTrip(n / 10);
      assert s[..|s| - 1] == Decimal(n / 10);
    }
  }

  /** Distinct timestamps have distinct decimal texts. */
  lemma DecimalInjective(m: nat, n: nat)
    requires Decimal(m) == Decimal(n)
    ensures m == n
  {
    DecimalRoundTrip(m);
    DecimalRoundTrip(n);
  }

  /** An extension as `path.extname` yields it: empty, or starting with a dot. */
  predicate IsExtension(ext: string)
  {
    |ext| == 0 || ext[0] == '.'
  }

  /** `fieldname + '-' + timestamp + ext`. */
  function StoredFilename(fieldname: string, timestamp: nat, ext: string): (name: string)
    ensures |name| == |fieldname| + 1 + |Decimal(timestamp)| + |ext|
    ensures name[..|fieldname| + 1] == fieldname + "-"
    ensures name[|name| - |ext|..] == ext
    ensures var mid := name[|fieldname| + 1..|name| - |ext|];
      (forall i :: 0 <= i < |mid| ==> IsDigit(mid[i])) && ParseDecimal(mid) == timestamp
  {
    var name := fieldname + "-" + Decimal(timestamp) + ext;
    assert name[|fieldname| + 1..|name| - |ext|] == Decimal(timestamp);
    DecimalRoundTrip(timestamp);
    name
  }

  /**
   * For one field, the stored name determines both the timestamp and the
   * extension: two uploads collide only when they share the millisecond and
   * the extension.
   */
  lemma StoredFilenameInjective(fieldname: string, t1: nat, e1: string, t2: nat, e2: string)
    requires IsExtension(e1) && IsExtension(e2)
    requires StoredFilename(fieldname, t1, e1) == StoredFilename(fieldname, t2, e2)
    ensures t1 == t2 && e1 == e2
  {
  }
}

=== FILE: upload.dfy ===
/**
 * The `POST /upload` route (server.js, lines 50-70 and 113-161): multer's
 * intake of one `menuImage` file through `checkFileType` and the stored-name
 * callback, then the handler that short-circuits on an error or a missing
 * file and otherwise upserts the vendor's record and reports it.
 */
module Upload {
  import opened Optional
  import opened MenuStore
  import DailyQuery
  import FileType
  import StoredName

  /** Error texts and path prefixes the handler writes into its replies. */
  const NoFileError: string := "No file selected!"
  const SaveError: string := "Error saving vendor data"
  const UploadsPath: string := "uploads/"
  const UploadsUrl: string := "/uploads/"

  /** multer's `fileSize` limit, in bytes. */
  const MaxFileSize: nat := 10000000

  /**
   * The error multer passes to the handler: the bare string a file filter
   * rejects with, or an error object carrying a message.
   */
  datatype UploadError = StringError(text: string) | ErrorObject(message: string)

  /** A file part of the request as multer sees it: original extension, MIME type, size. */
  datatype IncomingFile = IncomingFile(ext: string, mimetype: string, size: nat)

  /** `req.file` after multer stored it. */
  datatype StoredFile = StoredFile(filename: string)

  /** What multer hands to the handler's callback. */
  datatype Intake = Intake(err: Option<UploadError>, file: Option<StoredFile>)

  /** The value of the reply's `error` field: a text, or the error object itself. */
  datatype ErrorBody = Text(text: string) | RawError(err: UploadError)

  /** The JSON reply of the route. */
  datatype Reply =
    | ErrorReply(error: ErrorBody)
    | SuccessReply(file: string, vendorData: MenuRecord)

  /** The reply together with the store the handler wrote, if it wrote one. */
  datatype Outcome = Outcome(reply: Reply, written: Option<seq<MenuRecord>>)

  /** `if (err)`: an empty string is falsy, every error object is truthy. */
  function IsTruthy(e: UploadError): (b: bool)
    ensures e.ErrorObject? ==> b
    ensures e.StringError? ==> (b <==> |e.text| > 0)
  {
    match e
    case StringError(t) => t != ""
    case ErrorObject(_) => true
  }

  /** `err.message || err`: a string has no message, an object's empty message falls back to the object. */
  function ErrorBodyOf(e: UploadError): (b: ErrorBody)
    ensures b.RawError? <==> e == ErrorObject("")
    ensures b.RawError? ==> b.err == e
    ensures b.Text? ==> b.text == (if e.StringError? then e.text else e.message)
  {
    match e
    case StringError(t) => Text(t)
    case ErrorObject(m) => if m != "" then Text(m) else RawError(e)
  }

  /** The handler stops before touching the store: a truthy error, or no file. */
  predicate ShortCircuits(err: Option<UploadError>, file: Option<StoredFile>)
  {
    (err.Some? && IsTruthy(err.value)) || file.None?
  }

  /**
   * multer with the route's configuration, for a request within the size
   * limit: no file part gives neither error nor file; a file the filter
   * rejects gives the filter's string error; an accepted file is stored
   * under `menuImage-<timestamp><ext>`.
   */
  function ReceiveFile(incoming: Option<IncomingFile>, now: nat): (r: Intake)
    requires incoming.Some? ==> incoming.value.size <= MaxFileSize
    ensures incoming.None? ==> r == Intake(None, None)
    ensures incoming.Some? ==>
      (r.file.Some? <==> FileType.CheckFileType(incoming.value.ext, incoming.value.mimetype).Accepted?)
    ensures incoming.Some? && r.file.None? ==> r.err == Some(StringError(FileType.ImagesOnly))
    ensures r.file.Some? ==>
      r.err.None? && r.file.value.filename == StoredName.StoredFilename(StoredName.FieldName, now, incoming.value.ext)
  {
    match incoming
    case None => Intake(None, None)
    case Some(f) =>
      match FileType.CheckFileType(f.ext, f.mimetype)
      case Rejected(e) => Intake(Some(StringError(e)), None)
      case Accepted => Intake(None, Some(StoredFile(StoredName.StoredFilename(StoredName.FieldName, now, f.ext))))
  }

  /** The record the handler builds for a stored file. */
  function RecordFor(vendorName: string, filename: string, uploadTime: string, isoNow: string): (rec: MenuRecord)
    ensures rec.vendorName == vendorName
    ensures rec.imageUrl == UploadsUrl + filename
    ensures rec.uploadTime == uploadTime
    ensures rec.uploadDate == DailyQuery.DatePart(isoNow)
  {
    MenuRecord(vendorName, UploadsUrl + filename, uploadTime, DailyQuery.DatePart(isoNow))
  }

  /**
   * The upload callback. A truthy error replies with `err.message || err`; a
   * missing file replies "No file selected!"; both leave the store unread and
   * unwritten. Otherwise the parsed store is upserted and written back; a
   * parsed value that is not a list makes `findIndex` throw, answered with the
   * save error and no write.
   */
  function HandleUpload(err: Option<UploadError>, file: Option<StoredFile>, vendorName: string,
                        read: ReadResult, uploadTime: string, isoNow: string): (o: Outcome)
    ensures err.Some? && IsTruthy(err.value) ==>
      o == Outcome(ErrorReply(ErrorBodyOf(err.value)), None)
    ensures !(err.Some? && IsTruthy(err.value)) && file.None? ==>
      o == Outcome(ErrorReply(Text(NoFileError)), None)
    ensures !ShortCircuits(err, file) && ReadVendors(read).NotAList? ==>
      o == Outcome(ErrorReply(Text(SaveError)), None)
    ensures !ShortCircuits(err, file) && ReadVendors(read).Records? ==>
      && o.reply.SuccessReply?
      && o.reply.file == UploadsPath + file.value.filename
      && o.reply.vendorData.imageUrl == UploadsUrl + file.value.filename
      && o.reply.vendorData.vendorName == vendorName
      && o.reply.vendorData.uploadTime == uploadTime
      && o.reply.vendorData.uploadDate == DailyQuery.DatePart(isoNow)
      && o.written == Some(Upsert(ReadVendors(read).records, o.reply.vendorData))
  {
    if err.Some? && IsTruthy(err.value) then
      Outcome(ErrorReply(ErrorBodyOf(err.value)), None)
    else if file.None? then
      Outcome(ErrorReply(Text(NoFileError)), None)
    else
      var filename := file.value.filename;
      match ReadVendors(read)
      case NotAList => Outcome(ErrorReply(Text(SaveError)), None)
      case Records(vendors) =>
        var rec := RecordFor(vendorName, filename, uploadTime, isoNow);
        Outcome(SuccessReply(UploadsPath + filename, rec), Some(Upsert(vendors, rec)))
  }

  /** The whole route: multer's intake followed by the handler. */
  function HandleRequest(incoming: Option<IncomingFile>, now: nat, vendorName: string,
                         read: ReadResult, uploadTime: string, isoNow: string): (o: Outcome)
    requires incoming.Some? ==> incoming.value.size <= MaxFileSize
    ensures o.written.Some? ==>
      incoming.Some? && FileType.CheckFileType(incoming.value.ext, incoming.value.mimetype).Accepted?
    ensures incoming.None? ==> o == Outcome(ErrorReply(Text(NoFileError)), None)
    ensures incoming.Some? && FileType.CheckFileType(incoming.value.ext, incoming.value.mimetype).Rejected? ==>
      o == Outcome(ErrorReply(Text(FileType.ImagesOnly)), None)
    ensures incoming.Some? && FileType.CheckFileType(incoming.value.ext, incoming.value.mimetype).Accepted?
            && ReadVendors(read).NotAList? ==>
      o == Outcome(ErrorReply(Text(SaveError)), None)
    ensures incoming.Some? && FileType.CheckFileType(incoming.value.ext, incoming.value.mimetype).Accepted?
            && ReadVendors(read).Records? ==>
      && o.reply.SuccessReply?
      && o.reply.file == UploadsPath + StoredName.StoredFilename(StoredName.FieldName, now, incoming.value.ext)
      && o.reply.vendorData == RecordFor(vendorName, StoredName.StoredFilename(StoredName.FieldName, now, incoming.value.ext),
                                         uploadTime, isoNow)
      && o.written == Some(Upsert(ReadVendors(read).records, o.reply.vendorData))
  {
    var intake := ReceiveFile(incoming, now);
    HandleUpload(intake.err, intake.file, vendorName, read, uploadTime, isoNow)
  }

  /** On the short-circuit paths the outcome does not depend on the store, and nothing is written. */
  lemma ShortCircuitIgnoresStore(err: Option<UploadError>, file: Option<StoredFile>, vendorName: string,
                                 read1: ReadResult, read2: ReadResult, uploadTime: string, isoNow: string)
    requires ShortCircuits(err, file)
    ensures HandleUpload(err, file, vendorName, read1, uploadTime, isoNow)
         == HandleUpload(err, file, vendorName, read2, uploadTime, isoNow)
    ensures HandleUpload(err, file, vendorName, read1, uploadTime, isoNow).written.None?
    ensures HandleUpload(err, file, vendorName, read1, uploadTime, isoNow).reply.ErrorReply?
  {
  }

  /** A successful upload into a store without duplicate vendors keeps it so, with exactly one record for the vendor. */
  lemma SuccessKeepsUniqueVendors(err: Option<UploadError>, file: Option<StoredFile>, vendorName: string,
                                  records: seq<MenuRecord>, uploadTime: string, isoNow: string)
    requires !ShortCircuits(err, file) && UniqueVendors(records)
    ensures var o := HandleUpload(err, file, vendorName, Parsed(Records(records)), uploadTime, isoNow);
      && o.written.Some?
      && UniqueVendors(o.written.value)
      && Count(o.written.value, vendorName) == 1
  {
    var o := HandleUpload(err, file, vendorName, Parsed(Records(records)), uploadTime, isoNow);
    UpsertPreservesUnique(records, o.reply.vendorData);
    UpsertExactlyOne(records, o.reply.vendorData);
  }

  /**
   * The fail-open read: when the store cannot be read, a successful upload
   * writes a store holding only the new record, dropping every earlier one.
   */
  lemma UnreadableStoreIsReplaced(err: Option<UploadError>, file: Option<StoredFile>, vendorName: string,
                                  uploadTime: string, isoNow: string)
    requires !ShortCircuits(err, file)
    ensures var o := HandleUpload(err, file, vendorName, ReadFailed, uploadTime, isoNow);
      o.reply.SuccessReply? && o.written == Some([o.reply.vendorData])
  {
    var o := HandleUpload(err, file, vendorName, ReadFailed, uploadTime, isoNow);
    var rec := o.reply.vendorData;
    assert !HasVendor([], rec.vendorName);
    assert [] + [rec] == [rec];
  }

  /** A `.exe` upload is refused with the images-only error and nothing is written, whatever its MIME type. */
  lemma ExeUploadRejected(mimetype: string, size: nat, now: nat, vendorName: string,
                          read: ReadResult, uploadTime: string, isoNow: string)
    requires size <= MaxFileSize
    ensures HandleRequest(Some(IncomingFile(".exe", mimetype, size)), now, vendorName, read, uploadTime, isoNow)
         == Outcome(ErrorReply(Text(FileType.ImagesOnly)), None)
  {
    FileType.ExeRejected(mimetype);
  }

  /**
   * Upload, then list: after a successful upload into a store without
   * duplicate vendors, a listing on the same date holds the new record and
   * exactly one record for the vendor.
   */
  lemma UploadThenListShowsVendor(err: Option<UploadError>, file: Option<StoredFile>, vendorName: string,
                                  records: seq<MenuRecord>, uploadTime: string, isoNow: string, isoLater: string)
    requires !ShortCircuits(err, file) && UniqueVendors(records)
    requires DailyQuery.DatePart(isoLater) == DailyQuery.DatePart(isoNow)
    ensures var o := HandleUpload(err, file, vendorName, Parsed(Records(records)), uploadTime, isoNow);
      && o.written.Some?
      && var listed := DailyQuery.ListMenus(Parsed(Records(o.written.value)), isoLater);
      && listed.Menus?
      && o.reply.vendorData in listed.records
      && Count(listed.records, vendorName) == 1
  {
    var o := HandleUpload(err, file, vendorName, Parsed(Records(records)), uploadTime, isoNow);
    var rec := o.reply.vendorData;
    var w := Upsert(records, rec);
    var today := DailyQuery.DatePart(isoLater);
    UpsertPreservesUnique(records, rec);
    UpsertExactlyOne(records, rec);
    var i :| 0 <= i < |w| && w[i] == rec;
    assert forall j :: 0 <= j < |w| && w[j].vendorName == vendorName ==> w[j].uploadDate == today by {
      forall j | 0 <= j < |w| && w[j].vendorName == vendorName
        ensures w[j].uploadDate == today
      {
        assert j == i;
      }
    }
    DailyQuery.TodayMenusCount(w, today, vendorName);
  }
}
